=== FILE: README.md ===
# Camera segmentation pipeline — a Dafny model

The web app samples frames from the camera of a WebXR augmented-reality
session. It downsamples each sampled frame on the GPU to a fixed 256 x 448
working texture and reads the texture back, as RGBA bytes, into the buffer
held by one of two readback slots. It then transfers that buffer, without
copying, to a TensorFlow.js worker. Each buffer is transferred once, and the
slot is refilled with a new allocation (app.js:243-257). The worker turns the
bytes into the model's H x W x 3 input, runs the segmentation model and posts
the label mask back. The render loop uploads that
mask into the texture it draws as an overlay.

This project models the two pieces of that pipeline that are exact integer and
sequence logic:

- **The render loop of `app.js`** (module `Pipeline`, file `pipeline.dfy`).
  - The loop is an immutable `PipelineState`. Pure functions define the
    session start, the "sample now" button, one `onXRFrame` tick and the
    handler for the worker's messages.
  - A tick decides whether to sample: either the manual trigger is set, or
    `frameCount mod sampleEvery == 0`.
  - A sampled tick whose framebuffer is complete moves the buffer of the
    current readback slot to the worker, refills that slot with a new
    allocation and toggles `rbIndex`. It also advances the 30-sample latency
    window.
  - An incomplete framebuffer throws out of the tick after the trigger has
    been consumed.
  - Buffers have identities. Transferred (detached) ones are recorded, which
    turns the zero-copy ownership discipline into provable facts.
  - `Run` folds the loop over any sequence of events.
- **The interval field** (module `ParseInt`, file `parse_int.dfy`). This is
  ECMAScript `parseInt(·, 10)` as section 19.2.5 of ECMA-262 defines it:
  leading white space, an optional sign, and the longest run of digits. NaN is
  `None`. `Pipeline.SampleEveryOf` adds the `|| 2` falsy default and the
  `Math.max(1, ·)` clamp.
- **The worker's message handler** of `tf-worker-bytes.js` (module `Worker`,
  file `worker.dfy`).
  - `init` records the dimensions and marks the model as loaded.
  - A `frameRGBA` message without a buffer is ignored. So is any other message.
  - A frame is wrapped as `ImageData`, whose constructor can throw, and then
    becomes the model input.
  - The inference itself (normalise, `predict`, arg-max, `toPixels`) is a
    function parameter `predict: Tensor -> LabelMap`.
- **The pixel layout transform** (module `Layout`, file `layout.dfy`).
  - The checks of the HTML `ImageData(data, sw, sh)` constructor, including
    the WebIDL `unsigned long` conversion of the width and height (mod 2^32).
  - `tf.browser.fromPixels`, which drops alpha and reads rows top-first.
  - `tf.reverse(x, [0])`, which reverses the row order.
- **Both ends together** (module `Handoff`, file `handoff.dfy`). Every frame
  the loop sends passes the worker's `ImageData` check. A sampled tick whose
  framebuffer is complete reaches the model as the downsampled frame with its
  rows reversed. The worker's reply
  becomes the loop's cached mask.

`common.dfy` holds the shared `byte`, `Option` and `LabelMap` types.

The whole-run ownership and rotation facts are proved once, by induction, for
any step function that obeys a per-event law. These are `Pipeline.Fold` and
the `Pipeline.Fold*` lemmas, with `Pipeline.StepLaw` as the law.
`Pipeline.ApplyIsLawful` shows that the real event handler `Pipeline.Apply`
obeys it.

Two facts about the code shape the model:

- The code has no busy flag and no backpressure. Every sampled tick whose
  framebuffer is complete transfers a buffer, even while the worker is still
  busy with the previous one (app.js:353-363).
- The mask overlay is drawn only inside the sampled branch (app.js:365-368),
  not on every tick.

## Model

| member | source | states |
|---|---|---|
| Pipeline.InitialValid | app.js:26-49 | The module-level start state satisfies the loop invariant: interval 2, slot 0, and two distinct frame-sized buffers, both owned and none detached. |
| Pipeline.SampleEveryOf | app.js:127 | The interval is always at least 1, so the modulo is defined. A NaN or zero parse gives the default 2, a negative value gives 1, and a positive value is kept. |
| Pipeline.SampleEveryFromInput | app.js:127 | Reference definition of `Math.max(1, parseInt(everyN.value, 10) || 2)`, the interval a session start stores; always at least 1. `Pipeline.SampleEveryOfTypedNumber` and `Pipeline.BlankFieldGivesDefault` state what it gives. |
| Pipeline.SampleEveryOfTypedNumber | app.js:127 | Any integer typed into the field, after white space and before trailing non-digit text, gives itself when positive, 2 when zero and 1 when negative. |
| Pipeline.BlankFieldGivesDefault | app.js:127 | An empty or all-white-space field gives the default interval 2. |
| ParseInt.ParseIntReadsDecimal | app.js:127 | Round trip: `parseInt` reads back any integer written in decimal, with any leading white space and any tail that does not start with a digit. |
| ParseInt.ParseInt10 | app.js:127 | Reference definition of `parseInt(·, 10)`: skip white space, take one optional sign, then read the longest digit run; NaN is `None`. `ParseInt.ParseIntReadsDecimal` and `ParseInt.ParseIntNaN` characterise it. |
| ParseInt.ParseIntNaN | app.js:127 | `parseInt` gives NaN exactly when no digit follows the leading white space and the optional sign. |
| ParseInt.TrimStart | app.js:127 | The result is a suffix of the input, everything removed is ECMAScript white space, and the result does not start with white space. |
| ParseInt.DigitPrefix | app.js:127 | The result is the longest all-digit prefix of the input. |
| Pipeline.FirstCameraTickOfSessionSamples | app.js:127-155 | Starting a session sets the interval to `SampleEveryOf(parseInt(field, 10))`. By that function's contract this is 2 for NaN or 0, 1 for a negative number and the number itself otherwise. It also clears the trigger, restarts the frame count at 0 and blanks the mask texture, and it changes nothing else. So the session's first camera tick samples. |
| Pipeline.SampleNowForcesSample | app.js:212 | The "sample now" button sets the trigger and changes nothing else, and the next camera tick samples. |
| Pipeline.WillSample | app.js:353 | Reference definition of the sampling rule: the trigger is set, or the frame count is a multiple of the interval. `Pipeline.Tick`, `Pipeline.FirstCameraTickOfSessionSamples` and `Pipeline.SampleNowForcesSample` state what it decides. |
| Pipeline.FindCamera | app.js:335-351 | The view loop finds a camera image exactly when some view has both a camera and a camera image. |
| Pipeline.SendToWorker | app.js:237-260 | The message carries the current slot's buffer id with the drawn pixels, at 256 x 448 with `flippedY`. That slot gets a new buffer, the other slot is untouched, `rbIndex` toggles, only the moved buffer becomes detached, and nothing else changes. |
| Pipeline.Tick | app.js:314-384 | No pose or no camera image: an early return that changes nothing. Past that point the tick samples iff the trigger is set or `frameCount mod sampleEvery == 0`, and sampling clears the trigger. An incomplete framebuffer throws with the trigger consumed and nothing else changed. A completed tick advances `frameCount` by exactly 1. A sampled tick whose framebuffer is complete sends exactly one transfer from the current slot and advances the window counter, wrapping at 30. |
| Pipeline.SampledButNoTransfer | app.js:219-220 | A tick that decides to sample but finds the framebuffer incomplete throws: it sends nothing, leaves the window counter alone and only consumes the trigger. So a sampled tick and a transfer are not the same thing. |
| Pipeline.OnWorkerMessage | app.js:195-202 | Only the cached mask can change. It changes only for a `'mask'` message with a bitmap, and such a message always installs its bitmap. |
| Pipeline.Apply | app.js:314-384 | Dispatches the four events: session start (app.js:127-155), the "sample now" button (212), a tick (314-384, the cited lines) and the mask handler (195-202). Every event keeps the loop well formed and sends at most one frame. A send uses the current slot, toggles it, moves that slot's buffer, refills the slot with a new allocation and advances the window counter mod 30. An event that sends nothing leaves the slots, the index, the detached set and the counter alone. This includes a session restart. |
| Pipeline.ApplyObeysStepLaw | app.js:243-257 | Every event obeys the per-event law and preserves the invariant: the slots hold distinct, owned, frame-sized buffers. |
| Pipeline.Run | app.js:244-251 | Over any event sequence the loop stays well formed, and every frame it posts is a whole 256 x 448 RGBA frame flagged `flippedY`. |
| Pipeline.SlotsAlternate | app.js:250-257 | Over any run the k-th transfer uses slot (start + k) mod 2, and the final index is (start + transfers) mod 2. |
| Pipeline.SampleCountTracksTransfers | app.js:372-378 | Over any run the window counter equals (start + transfers) mod 30, where the transfers are the sampled ticks that complete. A sampled tick whose framebuffer is incomplete throws before app.js:373 and does not move the counter. The counter stays in [0, 30) and returns to 0 exactly on every 30th transfer. |
| Pipeline.TransfersMoveOwnedBuffers | app.js:250-257 | Over any run the invariant holds and the detached set only grows. Every transferred buffer was not detached before the run and is detached after it. No buffer is transferred twice, and no slot ends up holding a transferred buffer. |
| Pipeline.BlindTicksChangeNothing | app.js:322-351 | Ticks without a pose or a camera image can be cut out of any run, at any position after any prefix of events, without changing its final state or the frames it sends. |
| Pipeline.FoldAppend | app.js:314-315 | Running the loop over `a + b` is running it over `a` and then over `b` from where `a` left off. The final state is the second run's, and the frames sent are the first run's followed by the second's. |
| Pipeline.ManualTriggerSurvivesBlindTicks | app.js:348-355 | A pending manual trigger survives any number of ticks without a pose or camera image. The next camera tick consumes it and sends one frame, or none if the framebuffer is incomplete. |
| Layout.CheckImageData | tf-worker-bytes.js:41 | Reference definition of the `new ImageData(data, sw, sh)` checks, in the order the HTML standard gives: length non-zero and a multiple of 4, else `InvalidStateError`; then, with both dimensions converted to unsigned long, the width non-zero and dividing the pixel count and the height equal to the quotient, else `IndexSizeError`. `Layout.AcceptsExactly` characterises when it succeeds. |
| Layout.AcceptsExactly | tf-worker-bytes.js:41 | `new ImageData(u8, width, height)` succeeds iff both converted dimensions are non-zero and the buffer has exactly 4 bytes per pixel. |
| Layout.DecodeRow | tf-worker-bytes.js:42 | One decoded row has w pixels. Channel k < 3 of pixel c is byte 4c + k, so alpha is dropped. |
| Layout.FromPixels | tf-worker-bytes.js:42 | `fromPixels` gives an h x w tensor whose channel k of pixel (r, c) is byte 4(rw + c) + k of the buffer. |
| Layout.FlipRows | tf-worker-bytes.js:45-47 | Reversing axis 0 keeps the row count, and row r becomes row h - 1 - r of the input. |
| Layout.FlipRowsTwice | tf-worker-bytes.js:45-47 | Reversing the rows twice restores the tensor. |
| Layout.FlipSamples | tf-worker-bytes.js:45-47 | Reversing a top-first decode yields the decode that reads buffer row h - 1 - r into tensor row r. |
| Layout.ModelInput | tf-worker-bytes.js:38-47 | The model input has shape h x w. Channel k of pixel (r, c) is byte 4(r'w + c) + k, where r' is r, or h - 1 - r when `flippedY` is set. |
| Worker.FrameInput | tf-worker-bytes.js:38-47 | For a buffer the `ImageData` check accepts, the input has the dimensions the constructor settled on and the byte layout of `Layout.ModelInput`. |
| Worker.OnMessage | tf-worker-bytes.js:10-63 | `init` records width and height, loads the model and sends no reply. Only `init` changes state. A frame without a buffer, another type or no data does nothing. Exactly one mask, the prediction on the frame's model input, is sent per processed frame. An unprocessed frame with a buffer reports why: the `ImageData` check failed, or no model was loaded. |
| Worker.RunAll | tf-worker-bytes.js:10-63 | Reference definition of the worker handling a message stream one message at a time, in order. `Worker.OneReplyPerProcessedFrame` counts its replies. |
| Worker.OneReplyPerProcessedFrame | tf-worker-bytes.js:55-62 | Over any message stream the worker posts exactly as many masks as it processes frames. |
| Worker.InitEnablesFrames | tf-worker-bytes.js:13-15 | After an `init`, every frame whose buffer holds 4 bytes per stated pixel is processed. |
| Handoff.SentFramesFitImageData | app.js:250-253 | Every frame the loop posts, in any run, passes the worker's `ImageData` length check. |
| Handoff.SampledTickReachesModel | app.js:243-253 | The transfer of a sampled tick whose framebuffer is complete, handled by an initialised worker, yields exactly one mask. That mask is predicted from a 448 x 256 tensor whose row r is row 447 - r of the readback buffer. |
| Handoff.InitThenFrameIsAnswered | app.js:192 | The loop's own `init` message sets the worker to 256 x 448 with a model, and the worker then answers any whole frame the loop posts. |
| Handoff.ReplyBecomesCachedMask | app.js:195-202 | A worker reply, delivered to the loop, becomes the cached mask. |

## Left out

- XR session setup, WebGL context creation, shader compilation and buffer setup (app.js:119-210): platform I/O. The session-start event keeps only the state it resets: the interval, the trigger, the frame count and the mask texture.
- GPU work: the downsample draw, `drawToCanvas`, `drawMaskOverlay` and the shader's UV flip. A tick receives the framebuffer status and the pixels the downsample leaves in the working texture as inputs. Of the downsample only "incomplete framebuffer throws" is kept.
- The overlay threshold (`step(u_thresh, m)` with 1.5/255) is float shader code. A mask byte of 1 counts as background.
- FPS estimate and latency totals (app.js:317-320, 370-378): floating point. Only the integer window counter is modelled.
- TensorFlow.js: backend selection, model loading, warm-up, `predict`, `argMax`, `toPixels` and the `ImageBitmap` transfer are foreign code. Inference is the `predict` parameter. A successful `init` simply marks the model as loaded, and a failing model load is not modelled.
- Worker.OnMessage: `new OffscreenCanvas(W, H)` during `init` can throw for unusable sizes. The model treats `init` as always succeeding.
- Concurrency: the loop and the worker run in parallel, and the worker's handler is `async`. Both are modelled as handling one message at a time, in order. Interleavings, such as a frame arriving while `init` is still loading, are not modelled.
- Session end and the old worker's lifetime, including replies that arrive after the session has ended.
- Pipeline.Tick: JavaScript numbers are doubles, so `frameCount` loses precision above 2^53. The model uses unbounded integers.
- ParseInt.ParseIntReadsDecimal: `parseInt` yields a double, so integers above 2^53 are rounded. The round trip is stated for unbounded integers.
- The status text and the on-screen messages (`setStatus`, `setOverlay`).
- The shadowed `const overlayProgram` and its uniform locations (app.js:184-188) are a WebGL wiring issue outside this model.

=== FILE: common.dfy ===
/** Value types shared by the render loop and the inference worker. */
module Common {

  /** One element of a Uint8Array / Uint8ClampedArray. */
  type byte = x: int | 0 <= x < 256

  /** A value that may be absent (a missing message field, a JavaScript `null`). */
  datatype Option<+T> = None | Some(value: T)

  /** The label image the worker paints from the model's arg-max and sends back
      as an ImageBitmap; the render loop treats it as an opaque picture. */
  datatype LabelMap = LabelMap(labels: seq<seq<int>>)
}

=== FILE: handoff.dfy ===
/** The two ends of the worker boundary put together: what the render loop
    posts is what the worker's handler accepts, and the worker's reply is
    what the loop caches. */
module Handoff {
  import opened Common
  import Layout
  import Worker
  import Pipeline

  /** The `init` message posted right after the worker is created (app.js:192). */
  function InitMessage(): Worker.Msg
  {
    Worker.Init("./tfjs/model.json", Pipeline.FboW, Pipeline.FboH)
  }

  /** A transfer as the worker receives it: the ArrayBuffer's bytes. */
  function ToWorker(m: Pipeline.FrameMsg): Worker.Msg
  {
    Worker.FrameRGBA(Some(m.buffer.bytes), m.width, m.height, m.flippedY)
  }

  /** A worker reply as the render loop receives it. */
  function ToApp(r: Worker.Reply): Pipeline.Inbound
  {
    Pipeline.Inbound("mask", Some(r.bitmap))
  }

  /** Every frame the loop ever posts passes the `ImageData` length check. */
  lemma SentFramesFitImageData(s: Pipeline.PipelineState, evs: seq<Pipeline.Event>)
    requires Pipeline.WellFormed(s)
    ensures var sent := Pipeline.Run(s, evs).sent;
      forall k :: 0 <= k < |sent| ==>
        Layout.Accepts(|sent[k].msg.buffer.bytes|, sent[k].msg.width, sent[k].msg.height)
  {
    var sent := Pipeline.Run(s, evs).sent;
    forall k | 0 <= k < |sent|
      ensures Layout.Accepts(|sent[k].msg.buffer.bytes|, sent[k].msg.width, sent[k].msg.height)
    {
      assert Pipeline.WholeFrame(sent[k].msg);
      Layout.AcceptsExactly(|sent[k].msg.buffer.bytes|, sent[k].msg.width, sent[k].msg.height);
    }
  }

  /** A sampled tick whose framebuffer is complete, handled by an initialised
      worker, yields exactly one mask whose input is the downsampled frame
      with its rows reversed. */
  lemma SampledTickReachesModel(s: Pipeline.PipelineState, f: Pipeline.Frame,
                                ws: Worker.WorkerState, predict: Layout.Tensor -> LabelMap)
    requires Pipeline.WellFormed(s) && ws.modelLoaded
    requires Pipeline.Tick(s, f).outcome == Pipeline.Completed(true)
    ensures var m := ToWorker(Pipeline.Tick(s, f).sent[0].msg);
      var o := Worker.OnMessage(ws, m, predict);
      && o.state == ws
      && |o.replies| == 1
      && exists t: Layout.Tensor ::
           && Layout.HasShape(t, Pipeline.FboH, Pipeline.FboW)
           && Layout.Samples(t, f.drawn, Pipeline.FboW, Pipeline.FboH, true)
           && o.replies[0] == Worker.MaskReply(predict(t))
  {
    var m := ToWorker(Pipeline.Tick(s, f).sent[0].msg);
    assert m == Worker.FrameRGBA(Some(f.drawn), Pipeline.FboW, Pipeline.FboH, true);
    Layout.AcceptsExactly(|f.drawn|, Pipeline.FboW, Pipeline.FboH);
    assert Worker.Processes(ws, m);
    var t := Worker.FrameInput(f.drawn, Pipeline.FboW, Pipeline.FboH, true);
    assert Layout.HasShape(t, Pipeline.FboH, Pipeline.FboW);
  }

  /** The worker's reply, delivered to the render loop, becomes the cached mask. */
  lemma ReplyBecomesCachedMask(s: Pipeline.PipelineState, r: Worker.Reply)
    ensures Pipeline.OnWorkerMessage(s, ToApp(r)).segTex == Some(r.bitmap)
  {
  }

  /** A fresh worker that receives the loop's `init` and then any frame the
      loop posted answers that frame. */
  lemma InitThenFrameIsAnswered(m: Pipeline.FrameMsg, predict: Layout.Tensor -> LabelMap)
    requires Pipeline.WholeFrame(m)
    ensures var w1 := Worker.OnMessage(Worker.Initial(), InitMessage(), predict).state;
      && w1 == Worker.WorkerState(Pipeline.FboW, Pipeline.FboH, true)
      && |Worker.OnMessage(w1, ToWorker(m), predict).replies| == 1
  {
    Worker.InitEnablesFrames(Worker.Initial(), "./tfjs/model.json", Pipeline.FboW, Pipeline.FboH, ToWorker(m), predict);
  }
}

=== FILE: layout.dfy ===
/** How the worker turns a received RGBA byte buffer into the model's input:
    the buffer is wrapped as an `ImageData` (whose constructor checks the
    byte length against the stated width and height), read by
    `tf.browser.fromPixels` into an H x W x 3 tensor that drops alpha, and
    optionally reversed along the row axis. */
module Layout {
  import opened Common

  /** One pixel of the model input: the three colour channels, alpha dropped. */
  datatype Rgb = Rgb(r: byte, g: byte, b: byte)

  function Channel(p: Rgb, k: nat): byte
    requires k < 3
  {
    if k == 0 then p.r else if k == 1 then p.g else p.b
  }

  /** An image tensor of shape [rows][columns], three channels per element. */
  type Tensor = seq<seq<Rgb>>

  predicate HasShape(t: Tensor, h: nat, w: nat)
  {
    |t| == h && forall r :: 0 <= r < h ==> |t[r]| == w
  }

  const TwoTo32: int := 0x1_0000_0000

  /** WebIDL conversion of an integer to `unsigned long` (wrap modulo 2^32). */
  function ToUint32(x: int): (u: nat)
    ensures u < TwoTo32
    ensures 0 <= x < TwoTo32 ==> u == x
  {
    x % TwoTo32
  }

  datatype ImageDataError = InvalidStateError | IndexSizeError

  /** The checks of the HTML `new ImageData(data, sw, sh)` constructor on a
      byte array of `length` bytes; `None` means the constructor succeeds. */
  function CheckImageData(length: nat, sw: int, sh: int): Option<ImageDataError>
  {
    var w := ToUint32(sw);
    var h := ToUint32(sh);
    if length == 0 || length % 4 != 0 then Some(InvalidStateError)
    else if w == 0 || (length / 4) % w != 0 then Some(IndexSizeError)
    else if h != (length / 4) / w then Some(IndexSizeError)
    else None
  }

  predicate Accepts(length: nat, sw: int, sh: int)
  {
    CheckImageData(length, sw, sh).None?
  }

  lemma MulDistributes(w: int, a: int, b: int)
    ensures w * a - w * b == w * (a - b)
  {
  }

  lemma MulAtLeast(w: nat, d: int)
    requires d >= 1
    ensures w * d >= w
  {
    assert w * d == w * (d - 1) + w;
  }

  lemma DivExact(p: nat, w: nat, h: nat)
    requires w > 0 && p == w * h
    ensures p % w == 0 && p / w == h
  {
    var q, m := p / w, p % w;
    assert p == w * q + m && 0 <= m < w;
    MulDistributes(w, h, q);
    assert w * (h - q) == m;
    if q < h {
      MulAtLeast(w, h - q);
    } else if q > h {
      MulAtLeast(w, q - h);
      MulDistributes(w, q, h);
    }
  }

  /** The constructor succeeds exactly when both dimensions are non-zero and
      the buffer holds 4 bytes for each of their pixels. */
  lemma AcceptsExactly(length: nat, sw: int, sh: int)
    ensures Accepts(length, sw, sh) <==>
      ToUint32(sw) > 0 && ToUint32(sh) > 0 && length == 4 * ToUint32(sw) * ToUint32(sh)
  {
    var w, h := ToUint32(sw), ToUint32(sh);
    if Accepts(length, sw, sh) {
      AcceptedLength(length, w, h);
    }
    if w > 0 && h > 0 && length == 4 * w * h {
      assert length == 4 * (w * h);
      assert length / 4 == w * h;
      DivExact(w * h, w, h);
    }
  }

  lemma AcceptedLength(length: nat, w: nat, h: nat)
    requires length > 0 && length % 4 == 0
    requires w > 0 && (length / 4) % w == 0 && h == (length / 4) / w
    ensures h > 0 && length == 4 * w * h
  {
    var p := length / 4;
    assert length == 4 * p;
    assert p == w * h + 0;
    assert 4 * w * h == 4 * (w * h);
  }

  /** One row of `fromPixels`: every group of four bytes gives one pixel,
      the fourth (alpha) byte dropped. */
  function DecodeRow(px: seq<byte>, w: nat): (row: seq<Rgb>)
    requires |px| == 4 * w
    ensures |row| == w
    ensures forall c, k :: 0 <= c < w && 0 <= k < 3 ==> Channel(row[c], k) == px[4 * c + k]
  {
    if w == 0 then []
    else [Rgb(px[0], px[1], px[2])] + DecodeRow(px[4..], w - 1)
  }

  /** `tf.browser.fromPixels` of an `h`-row, `w`-column RGBA image, row 0 first. */
  function FromPixels(u8: seq<byte>, w: nat, h: nat): (t: Tensor)
    requires |u8| == 4 * w * h
    ensures HasShape(t, h, w)
    ensures Samples(t, u8, w, h, false)
  {
    if h == 0 then []
    else
      RowSplit(w, h);
      var rest := FromPixels(u8[4 * w..], w, h - 1);
      var t := [DecodeRow(u8[..4 * w], w)] + rest;
      PrependRow(u8, w, h, rest, t);
      t
  }

  /** Decoding the first row in front of the decoded remaining rows decodes
      the whole buffer. */
  lemma PrependRow(u8: seq<byte>, w: nat, h: nat, rest: Tensor, t: Tensor)
    requires |u8| == 4 * w * h && h >= 1
    requires |u8| >= 4 * w && |u8[4 * w..]| == 4 * w * (h - 1)
    requires HasShape(rest, h - 1, w) && Samples(rest, u8[4 * w..], w, h - 1, false)
    requires t == [DecodeRow(u8[..4 * w], w)] + rest
    ensures HasShape(t, h, w) && Samples(t, u8, w, h, false)
  {
    forall r, c, k | 0 <= r < h && 0 <= c < w && 0 <= k < 3
      ensures SampleAt(t, u8, w, h, false, r, c, k)
    {
      PrependRowAt(u8, w, h, rest, t, r, c, k);
    }
  }

  lemma PrependRowAt(u8: seq<byte>, w: nat, h: nat, rest: Tensor, t: Tensor, r: nat, c: nat, k: nat)
    requires |u8| == 4 * w * h && h >= 1
    requires |u8| >= 4 * w && |u8[4 * w..]| == 4 * w * (h - 1)
    requires HasShape(rest, h - 1, w) && Samples(rest, u8[4 * w..], w, h - 1, false)
    requires t == [DecodeRow(u8[..4 * w], w)] + rest
    requires r < h && c < w && k < 3
    ensures SampleAt(t, u8, w, h, false, r, c, k)
  {
    if r == 0 {
      FirstRow(u8, w, c, k, Channel(t[0][c], k));
    } else {
      assert t[r] == rest[r - 1];
      SamplesAt(rest, u8[4 * w..], w, h - 1, false, r - 1, c, k);
      RowShift(u8, w, r, c, k, Channel(rest[r - 1][c], k));
    }
  }

  /** Pixel (r, c), channel k < 3 of `t` is byte 4 * (r' * w + c) + k of the
      RGBA buffer `u8`, where r' is r, or h - 1 - r when `flippedY` is set. */
  predicate Samples(t: Tensor, u8: seq<byte>, w: nat, h: nat, flippedY: bool)
    requires HasShape(t, h, w)
  {
    forall r, c, k :: 0 <= r < h && 0 <= c < w && 0 <= k < 3 ==>
      SampleAt(t, u8, w, h, flippedY, r, c, k)
  }

  /** Channel k of pixel (r, c) of `t` is the byte `Samples` says it is. */
  predicate SampleAt(t: Tensor, u8: seq<byte>, w: nat, h: nat, flippedY: bool, r: nat, c: nat, k: nat)
  {
    r < |t| && c < |t[r]| && k < 3 &&
    0 <= ByteIndex(SourceRow(r, h, flippedY), c, k, w) < |u8| &&
    Channel(t[r][c], k) == u8[ByteIndex(SourceRow(r, h, flippedY), c, k, w)]
  }

  /** The buffer row that row r of the tensor comes from. */
  function SourceRow(r: nat, h: nat, flippedY: bool): int
  {
    if flippedY then h - 1 - r else r
  }

  /** Position of channel k of pixel (r, c) in a row-major RGBA buffer of width w. */
  function ByteIndex(r: int, c: nat, k: nat, w: nat): int
  {
    4 * (r * w + c) + k
  }

  lemma SamplesAt(t: Tensor, u8: seq<byte>, w: nat, h: nat, flippedY: bool, r: nat, c: nat, k: nat)
    requires HasShape(t, h, w) && Samples(t, u8, w, h, flippedY)
    requires r < h && c < w && k < 3
    ensures ByteIndex(SourceRow(r, h, flippedY), c, k, w) < |u8|
    ensures Channel(t[r][c], k) == u8[ByteIndex(SourceRow(r, h, flippedY), c, k, w)]
  {
    assert SampleAt(t, u8, w, h, flippedY, r, c, k);
  }

  lemma RowSplit(w: nat, h: nat)
    requires h > 0
    ensures 4 * w * h == 4 * w + 4 * w * (h - 1)
    ensures 4 * w * (h - 1) >= 0
  {
    var m: nat := h - 1;
    assert 4 * w * h == 4 * w * (m + 1) == 4 * w * m + 4 * w;
    assert 4 * w * m >= 0;
  }

  /** A byte of the first row, read back in the whole image. */
  lemma FirstRow(u8: seq<byte>, w: nat, c: nat, k: nat, v: byte)
    requires 4 * w <= |u8| && c < w && k < 3
    requires v == u8[..4 * w][4 * c + k]
    ensures 4 * (0 * w + c) + k < |u8| && v == u8[4 * (0 * w + c) + k]
  {
  }

  /** A byte of the image without its first row, read back in the whole image. */
  lemma RowShift(u8: seq<byte>, w: nat, r: nat, c: nat, k: nat, v: byte)
    requires 4 * w <= |u8| && 1 <= r && c < w && k < 3
    requires 4 * ((r - 1) * w + c) + k < |u8[4 * w..]|
    requires v == u8[4 * w..][4 * ((r - 1) * w + c) + k]
    ensures 4 * (r * w + c) + k < |u8| && v == u8[4 * (r * w + c) + k]
  {
    RowOffset(r, c, w);
    var i := 4 * ((r - 1) * w + c) + k;
    assert u8[4 * w..][i] == u8[4 * w + i];
  }

  /** Pixel (r, c) lies one row of bytes further on than pixel (r - 1, c). */
  lemma RowOffset(r: nat, c: nat, w: nat)
    requires r >= 1
    ensures 4 * w + 4 * ((r - 1) * w + c) == 4 * (r * w + c)
  {
    var below := (r - 1) * w;
    assert r * w == below + w by {
      assert r * w == (r - 1 + 1) * w;
    }
  }

  /** `tf.reverse(x, [0])`: the same rows in the opposite order. */
  function FlipRows(t: Tensor): (f: Tensor)
    ensures |f| == |t|
    ensures forall r :: 0 <= r < |t| ==> f[r] == t[|t| - 1 - r]
  {
    if |t| == 0 then [] else [t[|t| - 1]] + FlipRows(t[..|t| - 1])
  }

  /** Flipping twice restores the tensor. */
  lemma FlipRowsTwice(t: Tensor)
    ensures FlipRows(FlipRows(t)) == t
  {
  }

  /** The model input built from a received buffer: fromPixels, then a
      vertical flip when the sender declared bottom-first rows. */
  function ModelInput(u8: seq<byte>, w: nat, h: nat, flippedY: bool): (t: Tensor)
    requires |u8| == 4 * w * h
    ensures HasShape(t, h, w)
    ensures Samples(t, u8, w, h, flippedY)
  {
    var x := FromPixels(u8, w, h);
    if flippedY then
      FlipSamples(x, u8, w, h);
      FlipRows(x)
    else x
  }

  /** Flipping a row-major decode gives the decode that reads rows bottom-first. */
  lemma FlipSamples(x: Tensor, u8: seq<byte>, w: nat, h: nat)
    requires HasShape(x, h, w) && Samples(x, u8, w, h, false)
    ensures HasShape(FlipRows(x), h, w) && Samples(FlipRows(x), u8, w, h, true)
  {
    var f := FlipRows(x);
    forall r, c, k | 0 <= r < h && 0 <= c < w && 0 <= k < 3
      ensures SampleAt(f, u8, w, h, true, r, c, k)
    {
      FlipAt(x, u8, w, h, f, r, c, k);
    }
  }

  lemma FlipAt(x: Tensor, u8: seq<byte>, w: nat, h: nat, f: Tensor, r: nat, c: nat, k: nat)
    requires HasShape(x, h, w) && Samples(x, u8, w, h, false)
    requires f == FlipRows(x)
    requires r < h && c < w && k < 3
    ensures SampleAt(f, u8, w, h, true, r, c, k)
  {
    assert f[r] == x[h - 1 - r];
    SamplesAt(x, u8, w, h, false, h - 1 - r, c, k);
    assert SourceRow(r, h, true) == SourceRow(h - 1 - r, h, false);
  }
}

=== FILE: parse_int.dfy ===
/** The radix-10 case of the ECMAScript global `parseInt(string, 10)`
    (section 19.2.5 of ECMA-262): skip leading white space, read an optional
    sign, then the longest run of decimal digits. No digits gives NaN, modelled
    as `None`; the result is otherwise the signed value of the digits. */
module ParseInt {
  import opened Common

  /** The WhiteSpace and LineTerminator code points that `TrimStart` removes
      (sections 12.2 and 12.3 of ECMA-262). */
  predicate IsJsSpace(ch: char)
  {
    var c := ch as int;
    || c == 0x09 || c == 0x0A || c == 0x0B || c == 0x0C || c == 0x0D
    || c == 0x20 || c == 0xA0 || c == 0x1680
    || (0x2000 <= c <= 0x200A)
    || c == 0x2028 || c == 0x2029 || c == 0x202F || c == 0x205F
    || c == 0x3000 || c == 0xFEFF
  }

  predicate IsDigit(ch: char)
  {
    '0' <= ch <= '9'
  }

  predicate AllJsSpace(s: string)
  {
    forall i :: 0 <= i < |s| ==> IsJsSpace(s[i])
  }

  predicate AllDigits(s: string)
  {
    forall i :: 0 <= i < |s| ==> IsDigit(s[i])
  }

  function DigitValue(ch: char): (d: nat)
    requires IsDigit(ch)
    ensures d < 10
  {
    ch as int - '0' as int
  }

  function DigitChar(d: nat): (ch: char)
    requires d < 10
    ensures IsDigit(ch) && DigitValue(ch) == d
  {
    ('0' as int + d) as char
  }

  /** Drops the leading white space of `s`. */
  function TrimStart(s: string): (t: string)
    ensures |t| <= |s| && t == s[|s| - |t|..]
    ensures forall i :: 0 <= i < |s| - |t| ==> IsJsSpace(s[i])
    ensures |t| == 0 || !IsJsSpace(t[0])
  {
    if |s| > 0 && IsJsSpace(s[0]) then TrimStart(s[1..]) else s
  }

  /** The longest prefix of `s` made of decimal digits. */
  function DigitPrefix(s: string): (z: string)
    ensures |z| <= |s| && z == s[..|z|]
    ensures AllDigits(z)
    ensures |z| == |s| || !IsDigit(s[|z|])
  {
    if |s| > 0 && IsDigit(s[0]) then [s[0]] + DigitPrefix(s[1..]) else []
  }

  /** The value of a run of decimal digits, most significant first. */
  function DigitsValue(z: string): nat
    requires AllDigits(z)
  {
    if |z| == 0 then 0 else 10 * DigitsValue(z[..|z| - 1]) + DigitValue(z[|z| - 1])
  }

  /** Splits off one leading sign character; the flag says it was `-`. */
  function SplitSign(t: string): (bool, string)
  {
    if |t| > 0 && t[0] == '-' then (true, t[1..])
    else if |t| > 0 && t[0] == '+' then (false, t[1..])
    else (false, t)
  }

  /** The value of the leading digits of `s`, or `None` when it has none. */
  function LeadingDigits(s: string): Option<nat>
  {
    var z := DigitPrefix(s);
    if |z| == 0 then None else Some(DigitsValue(z))
  }

  /** `parseInt(s, 10)`, with NaN as `None`. Both `+0` and `-0` are `Some(0)`. */
  function ParseInt10(s: string): Option<int>
  {
    var signed := SplitSign(TrimStart(s));
    match LeadingDigits(signed.1)
    case None => None
    case Some(v) => Some(Signed(signed.0, v))
  }

  function Signed(negative: bool, v: nat): int
  {
    if negative then -(v as int) else v
  }

  /** Decimal rendering of a natural number, without leading zeros. */
  function Decimal(n: nat): (s: string)
    ensures |s| > 0 && AllDigits(s)
  {
    if n < 10 then [DigitChar(n)] else Decimal(n / 10) + [DigitChar(n % 10)]
  }

  /** Decimal rendering of an integer, with a leading `-` when negative. */
  function IntToString(n: int): (s: string)
    ensures |s| > 0
  {
    if n < 0 then "-" + Decimal(-n) else Decimal(n)
  }

  lemma {:induction false} DecimalValue(n: nat)
    ensures DigitsValue(Decimal(n)) == n
  {
    if n >= 10 {
      var s := Decimal(n);
      DecimalValue(n / 10);
      assert s[..|s| - 1] == Decimal(n / 10);
    }
  }

  lemma {:induction false} DigitPrefixStopsAtNonDigit(z: string, rest: string)
    requires AllDigits(z)
    requires |rest| == 0 || !IsDigit(rest[0])
    ensures DigitPrefix(z + rest) == z
  {
    if |z| > 0 {
      assert (z + rest)[1..] == z[1..] + rest;
      DigitPrefixStopsAtNonDigit(z[1..], rest);
    } else {
      assert z + rest == rest;
    }
  }

  lemma {:induction false} TrimStartSkipsSpace(ws: string, t: string)
    requires AllJsSpace(ws)
    requires |t| == 0 || !IsJsSpace(t[0])
    ensures TrimStart(ws + t) == t
  {
    if |ws| > 0 {
      assert (ws + t)[1..] == ws[1..] + t;
      TrimStartSkipsSpace(ws[1..], t);
    } else {
      assert ws + t == t;
    }
  }

  /** Parsing after the white space is gone: sign, digits, then a non-digit. */
  lemma {:induction false} ParseIntAfterSpace(ws: string, negative: bool, d: string, tail: string, body: string)
    requires AllJsSpace(ws)
    requires |d| > 0 && AllDigits(d)
    requires |tail| == 0 || !IsDigit(tail[0])
    requires SplitSign(body) == (negative, d + tail)
    requires |body| > 0 && !IsJsSpace(body[0])
    ensures ParseInt10(ws + body) == Some(Signed(negative, DigitsValue(d)))
  {
    TrimStartSkipsSpace(ws, body);
    DigitPrefixStopsAtNonDigit(d, tail);
    assert LeadingDigits(d + tail) == Some(DigitsValue(d));
  }

  lemma ConcatAssoc(a: string, b: string, c: string)
    ensures a + b + c == a + (b + c)
  {
  }

  /** Round trip: `parseInt` reads back any integer written in decimal, after
      any leading white space and before any text that does not start with a
      digit (`"  12px"` reads as 12). */
  lemma ParseIntReadsDecimal(ws: string, n: int, tail: string)
    requires AllJsSpace(ws)
    requires |tail| == 0 || !IsDigit(tail[0])
    ensures ParseInt10(ws + (IntToString(n) + tail)) == Some(n)
  {
    if n < 0 {
      ReadsNegative(ws, -n, tail);
    } else {
      ReadsNonNegative(ws, n, tail);
    }
  }

  lemma ReadsNegative(ws: string, m: int, tail: string)
    requires AllJsSpace(ws) && m > 0
    requires |tail| == 0 || !IsDigit(tail[0])
    ensures ParseInt10(ws + (IntToString(-m) + tail)) == Some(-m)
  {
    var d := Decimal(m);
    DecimalValue(m);
    assert IntToString(-m) == "-" + d;
    ConcatAssoc("-", d, tail);
    var body := "-" + (d + tail);
    assert body[0] == '-' && body[1..] == d + tail;
    ParseIntAfterSpace(ws, true, d, tail, body);
  }

  lemma ReadsNonNegative(ws: string, n: nat, tail: string)
    requires AllJsSpace(ws)
    requires |tail| == 0 || !IsDigit(tail[0])
    ensures ParseInt10(ws + (IntToString(n) + tail)) == Some(n)
  {
    var d := Decimal(n);
    DecimalValue(n);
    assert IntToString(n) == d;
    assert IsDigit((d + tail)[0]);
    ParseIntAfterSpace(ws, false, d, tail, d + tail);
  }

  /** NaN exactly when no digit follows the white space and the optional sign. */
  lemma ParseIntNaN(s: string)
    ensures ParseInt10(s).None? <==>
      var rest := SplitSign(TrimStart(s)).1; |rest| == 0 || !IsDigit(rest[0])
  {
  }
}

=== FILE: pipeline.dfy ===
/** The render loop of app.js as a state machine: session start, the manual
    sample button, one `onXRFrame` tick, and the worker's mask messages.
    GPU work is abstracted to what a tick observes: whether a viewer pose and
    a camera image exist, the framebuffer status, and the pixels the
    downsample pass leaves in the working texture. */
module Pipeline {
  import opened Common
  import ParseInt

  /** Working resolution of the downsample target (app.js:23). */
  const FboW: nat := 256
  const FboH: nat := 448
  /** Bytes in one RGBA readback of the working texture (app.js:47-48). */
  const FrameBytes: nat := FboW * FboH * 4
  /** Length of the latency averaging window (app.js:312). */
  const SampleCountMax: nat := 30
  /** WebGL's FRAMEBUFFER_COMPLETE status. */
  const FramebufferComplete: int := 0x8CD5

  /** The contents of the working texture as `readPixels` returns them. */
  type Pixels = s: seq<byte> | |s| == FrameBytes witness seq(FrameBytes, _ => 0)

  /** A readback `Uint8Array`; `id` tells allocations apart. */
  datatype Buffer = Buffer(id: nat, bytes: seq<byte>)

  /** `new Uint8Array(fboW * fboH * 4)`: zero-filled, of one frame's size. */
  function Fresh(id: nat): (b: Buffer)
    ensures b.id == id && |b.bytes| == FrameBytes
    ensures forall i :: 0 <= i < |b.bytes| ==> b.bytes[i] == 0
  {
    Buffer(id, seq(FrameBytes, _ => 0))
  }

  datatype PipelineState = PipelineState(
    frameCount: nat,
    sampleEvery: int,
    manualSample: bool,
    rbIndex: int,
    readbacks: seq<Buffer>,
    /** id of the next `Uint8Array` the loop allocates */
    nextBuffer: nat,
    /** ids of the buffers whose ArrayBuffer was transferred, hence detached */
    detached: set<nat>,
    sampleCount: nat,
    /** the mask last uploaded into `segTex`; `None` is the all-zero texture */
    segTex: Option<LabelMap>)

  /** The module-level initial values (app.js:26, 45-49, 311). */
  function Initial(): PipelineState
  {
    PipelineState(0, 2, false, 0, [Fresh(0), Fresh(1)], 2, {}, 0, None)
  }

  /** What a tick needs in order to be defined: a positive modulus and a
      valid slot index. */
  predicate WellFormed(s: PipelineState)
  {
    && s.sampleEvery >= 1
    && (s.rbIndex == 0 || s.rbIndex == 1)
    && |s.readbacks| == 2
  }

  /** A slot buffer the loop still owns: frame-sized, allocated, not detached. */
  predicate Owned(s: PipelineState, b: Buffer)
  {
    |b.bytes| == FrameBytes && b.id < s.nextBuffer && b.id !in s.detached
  }

  /** The invariant of every reachable state. */
  predicate Valid(s: PipelineState)
  {
    && WellFormed(s)
    && s.sampleCount < SampleCountMax
    && Owned(s, s.readbacks[0]) && Owned(s, s.readbacks[1])
    && s.readbacks[0].id != s.readbacks[1].id
    && (forall id :: id in s.detached ==> id < s.nextBuffer)
  }

  lemma InitialValid()
    ensures Valid(Initial())
  {
  }

  /** `parseInt(everyN.value, 10) || 2` clamped by `Math.max(1, ·)`: NaN and
      zero are falsy and give the default 2 (app.js:127). */
  function SampleEveryOf(parsed: Option<int>): (n: int)
    ensures n >= 1
    ensures parsed.None? || parsed == Some(0) ==> n == 2
    ensures parsed.Some? && parsed.value < 0 ==> n == 1
    ensures parsed.Some? && parsed.value > 0 ==> n == parsed.value
  {
    var orDefault := if parsed.Some? && parsed.value != 0 then parsed.value else 2;
    if orDefault < 1 then 1 else orDefault
  }

  function SampleEveryFromInput(text: string): (n: int)
    ensures n >= 1
  {
    SampleEveryOf(ParseInt.ParseInt10(text))
  }

  /** What the interval field yields for an integer typed into it, possibly
      surrounded by white space and trailing non-digits. */
  lemma SampleEveryOfTypedNumber(ws: string, n: int, tail: string)
    requires ParseInt.AllJsSpace(ws)
    requires |tail| == 0 || !ParseInt.IsDigit(tail[0])
    ensures var r := SampleEveryFromInput(ws + (ParseInt.IntToString(n) + tail));
      r == if n > 0 then n else if n == 0 then 2 else 1
  {
    ParseInt.ParseIntReadsDecimal(ws, n, tail);
  }

  /** An empty or blank interval field parses to NaN and gives the default 2. */
  lemma BlankFieldGivesDefault(ws: string)
    requires ParseInt.AllJsSpace(ws)
    ensures SampleEveryFromInput(ws) == 2
  {
    ParseInt.TrimStartSkipsSpace(ws, []);
    assert ws + [] == ws;
  }

  /** One view of the viewer pose: whether it has a camera, and whether
      `getCameraImage` returned a texture for it. */
  datatype View = View(hasCamera: bool, hasImage: bool)

  predicate CameraReady(v: View)
  {
    v.hasCamera && v.hasImage
  }

  /** The view loop of `onXRFrame`: it stops at the first view that has a
      camera and a camera image. */
  function FindCamera(views: seq<View>): (found: bool)
    ensures found <==> exists i :: 0 <= i < |views| && CameraReady(views[i])
  {
    if |views| == 0 then false
    else if CameraReady(views[0]) then true
    else
      var rest := FindCamera(views[1..]);
      assert forall i :: 1 <= i < |views| ==> views[i] == views[1..][i - 1];
      rest
  }

  /** One animation frame as the loop sees it. `pose` is false when
      `getViewerPose` returned null; `drawn` is what the downsample pass
      leaves in the working texture when the framebuffer is complete. */
  datatype Frame = Frame(pose: bool, views: seq<View>, fboStatus: int, drawn: Pixels)

  /** `{ type: 'frameRGBA', width, height, buffer, flippedY }`. */
  datatype FrameMsg = FrameMsg(width: int, height: int, buffer: Buffer, flippedY: bool)

  /** One `postMessage` to the worker, with the slot whose buffer it moved. */
  datatype Transfer = Transfer(slot: int, msg: FrameMsg)

  datatype TickOutcome = NoPose | NoCamera | FboIncomplete(status: int) | Completed(sampled: bool)

  datatype Step = Step(state: PipelineState, outcome: TickOutcome, sent: seq<Transfer>)

  /** The sampling rule of `onXRFrame`. */
  predicate WillSample(s: PipelineState)
    requires s.sampleEvery >= 1
  {
    s.manualSample || s.frameCount % s.sampleEvery == 0
  }

  /** `sendDstTexToWorker`: read the working texture into the current slot's
      buffer, transfer that buffer, put a fresh buffer in its place and
      switch slots (`rbIndex ^= 1`, which on {0, 1} is `1 - rbIndex`). */
  function SendToWorker(s: PipelineState, drawn: Pixels): (res: (PipelineState, Transfer))
    requires WellFormed(s)
    ensures var (s', t) := res;
      && t == Transfer(s.rbIndex, FrameMsg(FboW, FboH, Buffer(s.readbacks[s.rbIndex].id, drawn), true))
      && WellFormed(s')
      && s'.readbacks[s.rbIndex] == Fresh(s.nextBuffer)
      && s'.readbacks[1 - s.rbIndex] == s.readbacks[1 - s.rbIndex]
      && s'.rbIndex == 1 - s.rbIndex
      && s'.nextBuffer == s.nextBuffer + 1
      && s'.detached == s.detached + {s.readbacks[s.rbIndex].id}
      && s'.(readbacks := s.readbacks, rbIndex := s.rbIndex, nextBuffer := s.nextBuffer, detached := s.detached) == s
  {
    var i := s.rbIndex;
    var buf := Buffer(s.readbacks[i].id, drawn);
    var msg := FrameMsg(FboW, FboH, buf, true);
    var s' := s.(
      readbacks := s.readbacks[i := Fresh(s.nextBuffer)],
      nextBuffer := s.nextBuffer + 1,
      detached := s.detached + {buf.id},
      rbIndex := 1 - i);
    (s', Transfer(i, msg))
  }

  /** One call of `onXRFrame`, minus the FPS estimate and the GPU drawing. */
  function Tick(s: PipelineState, f: Frame): (step: Step)
    requires WellFormed(s)
    ensures WellFormed(step.state)
    // no pose or no camera image: early return, nothing changes
    ensures step.outcome == NoPose <==> !f.pose
    ensures step.outcome == NoCamera <==> f.pose && !FindCamera(f.views)
    ensures step.outcome in {NoPose, NoCamera} ==> step.state == s && step.sent == []
    // the sampling decision, on a tick that reaches it
    ensures f.pose && FindCamera(f.views) ==>
      (step.outcome.FboIncomplete? || step.outcome == Completed(true) <==> WillSample(s))
    ensures step.outcome.FboIncomplete? || step.outcome == Completed(true) ==> !step.state.manualSample
    // a tick that does not sample only advances the frame counter
    ensures step.outcome == Completed(false) ==>
      step.state == s.(frameCount := s.frameCount + 1) && step.sent == []
    // an incomplete framebuffer throws: the trigger is consumed, nothing else changes
    ensures step.outcome.FboIncomplete? <==>
      f.pose && FindCamera(f.views) && WillSample(s) && f.fboStatus != FramebufferComplete
    ensures step.outcome.FboIncomplete? ==>
      step.outcome.status == f.fboStatus && step.state == s.(manualSample := false) && step.sent == []
    // the frame counter advances exactly on ticks that complete
    ensures step.state.frameCount == if step.outcome.Completed? then s.frameCount + 1 else s.frameCount
    // a sampled tick that completes transfers the current slot's buffer, refills that slot, switches slots
    ensures step.outcome == Completed(true) ==>
      && step.sent == [Transfer(s.rbIndex, FrameMsg(FboW, FboH, Buffer(s.readbacks[s.rbIndex].id, f.drawn), true))]
      && step.state.readbacks[s.rbIndex] == Fresh(s.nextBuffer)
      && step.state.readbacks[1 - s.rbIndex] == s.readbacks[1 - s.rbIndex]
      && step.state.rbIndex == 1 - s.rbIndex
      && step.state.nextBuffer == s.nextBuffer + 1
      && step.state.detached == s.detached + {s.readbacks[s.rbIndex].id}
      && step.state.sampleCount == (if s.sampleCount + 1 >= SampleCountMax then 0 else s.sampleCount + 1)
      && step.state.sampleEvery == s.sampleEvery
      && step.state.segTex == s.segTex
  {
    if !f.pose then Step(s, NoPose, [])
    else if !FindCamera(f.views) then Step(s, NoCamera, [])
    else if !WillSample(s) then Step(s.(frameCount := s.frameCount + 1), Completed(false), [])
    else
      var s1 := s.(manualSample := false);
      if f.fboStatus != FramebufferComplete then Step(s1, FboIncomplete(f.fboStatus), [])
      else
        var (s2, t) := SendToWorker(s1, f.drawn);
        var count := s2.sampleCount + 1;
        var s3 := s2.(
          sampleCount := if count >= SampleCountMax then 0 else count,
          frameCount := s2.frameCount + 1);
        Step(s3, Completed(true), [t])
  }

  /** `{ type, bitmap }` as the render loop receives it from the worker, or a
      message without data. */
  datatype Inbound = Inbound(tag: string, bitmap: Option<LabelMap>) | NoData

  /** `tfWorker.onmessage`: a `'mask'` message carrying a bitmap replaces the
      cached mask; every other message is ignored. */
  function OnWorkerMessage(s: PipelineState, m: Inbound): (s': PipelineState)
    ensures s'.(segTex := s.segTex) == s
    ensures s'.segTex != s.segTex ==> m.Inbound? && m.tag == "mask" && m.bitmap.Some?
    ensures m.Inbound? && m.tag == "mask" && m.bitmap.Some? ==> s'.segTex == m.bitmap
  {
    match m
    case Inbound(tag, bitmap) => if tag == "mask" && bitmap.Some? then s.(segTex := bitmap) else s
    case NoData => s
  }

  /** Everything that reaches the render loop, in order. */
  datatype Event =
    | StartSession(everyN: string)
    | SampleNow
    | RenderTick(frame: Frame)
    | WorkerMessage(msg: Inbound)

  datatype Trace = Trace(state: PipelineState, sent: seq<Transfer>)

  /** The frame message of a transfer carries a whole working-texture frame. */
  predicate WholeFrame(m: FrameMsg)
  {
    m.width == FboW && m.height == FboH && |m.buffer.bytes| == 4 * m.width * m.height && m.flippedY
  }

  function Apply(s: PipelineState, e: Event): (r: Trace)
    requires WellFormed(s)
    ensures WellFormed(r.state)
    ensures |r.sent| <= 1
    ensures forall k :: 0 <= k < |r.sent| ==> WholeFrame(r.sent[k].msg)
    // slot rotation: a transfer uses the current slot and switches slots
    ensures |r.sent| == 1 ==> r.sent[0].slot == s.rbIndex && r.state.rbIndex == 1 - s.rbIndex
    ensures |r.sent| == 0 ==> r.state.rbIndex == s.rbIndex && r.state.sampleCount == s.sampleCount
    ensures |r.sent| == 1 && s.sampleCount < SampleCountMax ==>
      r.state.sampleCount == (s.sampleCount + 1) % SampleCountMax
    // ownership: the transferred buffer was owned, and only it becomes detached
    ensures |r.sent| == 0 ==> r.state.detached == s.detached && r.state.readbacks == s.readbacks && r.state.nextBuffer == s.nextBuffer
    ensures |r.sent| == 1 ==>
      && r.sent[0].msg.buffer.id == s.readbacks[s.rbIndex].id
      && r.state.detached == s.detached + {s.readbacks[s.rbIndex].id}
      && r.state.readbacks[s.rbIndex] == Fresh(s.nextBuffer)
      && r.state.readbacks[1 - s.rbIndex] == s.readbacks[1 - s.rbIndex]
      && r.state.nextBuffer == s.nextBuffer + 1
  {
    match e
    case StartSession(text) =>
      // app.js:127-128, 148, 152-155: a new session re-reads the interval,
      // clears the trigger, restarts the frame count and recreates segTex
      Trace(s.(sampleEvery := SampleEveryFromInput(text), manualSample := false, frameCount := 0, segTex := None), [])
    case SampleNow => Trace(s.(manualSample := true), [])
    case RenderTick(f) =>
      var st := Tick(s, f);
      Trace(st.state, st.sent)
    case WorkerMessage(m) => Trace(OnWorkerMessage(s, m), [])
  }

  /** What one event may do to the buffers, the slot index and the window
      counter, as `Apply` promises it (ApplyIsLawful): at most one transfer,
      which moves the current slot's owned buffer, refills that slot with a
      new allocation, switches slots and advances the counter; with no
      transfer all of these stay as they were. */
  predicate StepLaw(s: PipelineState, r: Trace)
    requires WellFormed(s)
  {
    && WellFormed(r.state)
    && |r.sent| <= 1
    && (|r.sent| == 0 ==>
          && r.state.rbIndex == s.rbIndex
          && r.state.sampleCount == s.sampleCount
          && r.state.detached == s.detached
          && r.state.readbacks == s.readbacks
          && r.state.nextBuffer == s.nextBuffer)
    && (|r.sent| == 1 ==>
          && r.sent[0].slot == s.rbIndex
          && WholeFrame(r.sent[0].msg)
          && r.sent[0].msg.buffer.id == s.readbacks[s.rbIndex].id
          && r.state.rbIndex == 1 - s.rbIndex
          && (s.sampleCount < SampleCountMax ==> r.state.sampleCount == (s.sampleCount + 1) % SampleCountMax)
          && r.state.detached == s.detached + {s.readbacks[s.rbIndex].id}
          && r.state.readbacks[s.rbIndex].id == s.nextBuffer
          && r.state.readbacks[1 - s.rbIndex] == s.readbacks[1 - s.rbIndex]
          && r.state.nextBuffer == s.nextBuffer + 1)
    && (Valid(s) ==> Valid(r.state))
  }

  /** A step function defined on every well-formed state that obeys StepLaw. */
  ghost predicate Lawful(step: (PipelineState, Event) --> Trace)
  {
    forall s, e :: WellFormed(s) ==> step.requires(s, e) && StepLaw(s, step(s, e))
  }

  lemma ApplyIsLawful()
    ensures Lawful(Apply)
  {
    forall s, e | WellFormed(s)
      ensures StepLaw(s, Apply(s, e))
    {
      ApplyObeysStepLaw(s, e);
    }
  }

  /** A new session takes its interval from the field, clears the trigger,
      restarts the frame count at 0 and blanks the mask texture, leaving the
      readback slots alone; so its first camera tick samples. */
  lemma FirstCameraTickOfSessionSamples(s: PipelineState, text: string, f: Frame)
    requires WellFormed(s)
    requires f.pose && FindCamera(f.views)
    ensures var started := Apply(s, StartSession(text)).state;
      && started == s.(sampleEvery := SampleEveryOf(ParseInt.ParseInt10(text)), manualSample := false,
                       frameCount := 0, segTex := None)
      && started.frameCount == 0 && !started.manualSample
      && (Tick(started, f).outcome.FboIncomplete? || Tick(started, f).outcome == Completed(true))
  {
  }

  /** The "sample now" button only sets the trigger, and that makes the next
      camera tick sample, whatever the frame count. */
  lemma SampleNowForcesSample(s: PipelineState, f: Frame)
    requires WellFormed(s)
    requires f.pose && FindCamera(f.views)
    ensures var armed := Apply(s, SampleNow).state;
      && armed == s.(manualSample := true)
      && armed.manualSample && armed.frameCount == s.frameCount
      && (Tick(armed, f).outcome.FboIncomplete? || Tick(armed, f).outcome == Completed(true))
  {
  }

  /** A tick can decide to sample and still transfer nothing: when the
      framebuffer is incomplete it throws before the send and before the
      window counter moves, with only the trigger consumed. */
  lemma SampledButNoTransfer(s: PipelineState, f: Frame)
    requires WellFormed(s) && WillSample(s)
    requires f.pose && FindCamera(f.views) && f.fboStatus != FramebufferComplete
    ensures Tick(s, f).outcome == FboIncomplete(f.fboStatus)
    ensures Tick(s, f).sent == []
    ensures Tick(s, f).state == s.(manualSample := false)
  {
  }

  /** The render loop over a sequence of events: `Apply` folded over them. */
  function Run(s: PipelineState, evs: seq<Event>): (r: Trace)
    requires WellFormed(s)
    ensures WellFormed(r.state)
    ensures forall k :: 0 <= k < |r.sent| ==> WholeFrame(r.sent[k].msg)
  {
    ApplyIsLawful();
    Fold(Apply, s, evs)
  }

  /** Any lawful step function folded over a sequence of events. */
  function Fold(step: (PipelineState, Event) --> Trace, s: PipelineState, evs: seq<Event>): (r: Trace)
    requires Lawful(step) && WellFormed(s)
    ensures WellFormed(r.state)
    ensures forall k :: 0 <= k < |r.sent| ==> WholeFrame(r.sent[k].msg)
    decreases |evs|
  {
    if |evs| == 0 then Trace(s, [])
    else
      var first := step(s, evs[0]);
      var rest := Fold(step, first.state, evs[1..]);
      Trace(rest.state, first.sent + rest.sent)
  }

  /** The first event of a run, then the run of the others. */
  lemma FoldCons(step: (PipelineState, Event) --> Trace, s: PipelineState, evs: seq<Event>)
    requires Lawful(step) && WellFormed(s) && |evs| > 0
    ensures var first := step(s, evs[0]);
      && StepLaw(s, first)
      && Fold(step, s, evs) == Trace(Fold(step, first.state, evs[1..]).state, first.sent + Fold(step, first.state, evs[1..]).sent)
  {
  }

  lemma ApplyObeysStepLaw(s: PipelineState, e: Event)
    requires WellFormed(s)
    ensures StepLaw(s, Apply(s, e))
  {
    var r := Apply(s, e);
    if Valid(s) && |r.sent| == 1 {
      var i := s.rbIndex;
      assert r.state.readbacks[i].id == s.nextBuffer;
      assert r.state.readbacks[1 - i] == s.readbacks[1 - i];
      assert s.readbacks[1 - i].id != s.readbacks[i].id;
    }
  }

  /** The k-th transfer since the given state uses slot (rbIndex + k) mod 2,
      so from the initial state the k-th transfer uses slot k mod 2. */
  lemma SlotsAlternate(s: PipelineState, evs: seq<Event>)
    requires WellFormed(s)
    ensures Alternates(s.rbIndex, Run(s, evs))
  {
    ApplyIsLawful();
    FoldSlotsAlternate(Apply, s, evs);
  }

  lemma {:induction false} FoldSlotsAlternate(step: (PipelineState, Event) --> Trace, s: PipelineState, evs: seq<Event>)
    requires Lawful(step) && WellFormed(s)
    ensures Alternates(s.rbIndex, Fold(step, s, evs))
    decreases |evs|
  {
    if |evs| > 0 {
      FoldCons(step, s, evs);
      var first := step(s, evs[0]);
      FoldSlotsAlternate(step, first.state, evs[1..]);
      var rest := Fold(step, first.state, evs[1..]);
      RotationStep(s.rbIndex, first.sent, first.state.rbIndex, rest.sent, rest.state.rbIndex, first.sent + rest.sent);
    }
  }

  /** A run that started in slot b: its k-th transfer used slot (b + k) mod 2
      and it ends in slot (b + number of transfers) mod 2. */
  predicate Alternates(b: int, r: Trace)
  {
    r.state.rbIndex == (b + |r.sent|) % 2 && SlotsFrom(r.sent, b)
  }

  /** The k-th of `sent` moved the buffer of slot (b + k) mod 2. */
  predicate SlotsFrom(sent: seq<Transfer>, b: int)
  {
    forall k :: 0 <= k < |sent| ==> sent[k].slot == (b + k) % 2
  }

  /** One event followed by a run, as far as the slot index is concerned. */
  lemma RotationStep(b0: int, sent1: seq<Transfer>, b1: int, sent2: seq<Transfer>, b2: int, all: seq<Transfer>)
    requires b0 == 0 || b0 == 1
    requires |sent1| <= 1
    requires |sent1| == 1 ==> sent1[0].slot == b0 && b1 == 1 - b0
    requires |sent1| == 0 ==> b1 == b0
    requires b2 == (b1 + |sent2|) % 2
    requires SlotsFrom(sent2, b1)
    requires all == sent1 + sent2
    ensures b2 == (b0 + |all|) % 2
    ensures SlotsFrom(all, b0)
  {
    var n := |sent1|;
    forall k | 0 <= k < |all|
      ensures all[k].slot == (b0 + k) % 2
    {
      if k >= n {
        assert all[k] == sent2[k - n];
      }
    }
  }

  /** The latency window counter equals the number of transfers modulo 30:
      it stays in [0, 30) and returns to 0 exactly on every 30th. */
  lemma SampleCountTracksTransfers(s: PipelineState, evs: seq<Event>)
    requires WellFormed(s) && s.sampleCount < SampleCountMax
    ensures CountsTransfers(s.sampleCount, Run(s, evs))
  {
    ApplyIsLawful();
    FoldSampleCount(Apply, s, evs);
  }

  lemma {:induction false} FoldSampleCount(step: (PipelineState, Event) --> Trace, s: PipelineState, evs: seq<Event>)
    requires Lawful(step) && WellFormed(s) && s.sampleCount < SampleCountMax
    ensures CountsTransfers(s.sampleCount, Fold(step, s, evs))
    decreases |evs|
  {
    if |evs| > 0 {
      FoldCons(step, s, evs);
      var first := step(s, evs[0]);
      FoldSampleCount(step, first.state, evs[1..]);
      var rest := Fold(step, first.state, evs[1..]);
      CountStep(s.sampleCount, |first.sent|, first.state.sampleCount, |rest.sent|, rest.state.sampleCount, |first.sent + rest.sent|);
    }
  }

  /** A run that started with window counter c ends with c plus the number of
      transfers, modulo 30. */
  predicate CountsTransfers(c: nat, r: Trace)
  {
    r.state.sampleCount == (c + |r.sent|) % SampleCountMax
  }

  /** One event followed by a run, as far as the window counter is concerned. */
  lemma CountStep(c0: nat, n: nat, c1: nat, m: nat, c2: nat, total: nat)
    requires c0 < SampleCountMax && n <= 1
    requires n == 1 ==> c1 == (c0 + 1) % SampleCountMax
    requires n == 0 ==> c1 == c0
    requires c2 == (c1 + m) % SampleCountMax
    requires total == n + m
    ensures c2 == (c0 + total) % SampleCountMax
  {
  }

  /** Buffer ownership over a run: every transferred buffer was owned by the
      loop before, each buffer is transferred at most once, and no slot ever
      holds a buffer that has been transferred. */
  lemma TransfersMoveOwnedBuffers(s: PipelineState, evs: seq<Event>)
    requires Valid(s)
    ensures MovesOwned(s, Run(s, evs))
  {
    ApplyIsLawful();
    FoldMovesOwnedBuffers(Apply, s, evs);
  }

  /** Ownership across a run from `s` that ended in `r.state`: the loop's
      invariant holds at the end, detaching only grows, every transferred
      buffer was not yet detached before the run and is detached after it,
      no buffer is transferred twice, and no slot holds a transferred buffer. */
  predicate MovesOwned(s: PipelineState, r: Trace)
  {
    && Valid(r.state)
    && s.detached <= r.state.detached
    && (forall k :: 0 <= k < |r.sent| ==>
          r.sent[k].msg.buffer.id !in s.detached && r.sent[k].msg.buffer.id in r.state.detached)
    && (forall j, k :: 0 <= j < k < |r.sent| ==> r.sent[j].msg.buffer.id != r.sent[k].msg.buffer.id)
    && (forall k, i :: 0 <= k < |r.sent| && 0 <= i < 2 ==> r.sent[k].msg.buffer.id != r.state.readbacks[i].id)
  }

  lemma {:induction false} FoldMovesOwnedBuffers(step: (PipelineState, Event) --> Trace, s: PipelineState, evs: seq<Event>)
    requires Lawful(step) && Valid(s)
    ensures MovesOwned(s, Fold(step, s, evs))
    decreases |evs|
  {
    if |evs| > 0 {
      FoldCons(step, s, evs);
      var first := step(s, evs[0]);
      FoldMovesOwnedBuffers(step, first.state, evs[1..]);
      OwnershipStep(s, first, Fold(step, first.state, evs[1..]));
    }
  }

  /** One event followed by a run, as far as buffer ownership is concerned. */
  lemma OwnershipStep(s: PipelineState, first: Trace, rest: Trace)
    requires Valid(s) && StepLaw(s, first) && MovesOwned(first.state, rest)
    ensures MovesOwned(s, Trace(rest.state, first.sent + rest.sent))
  {
    if |first.sent| == 1 {
      TransferThenRun(s, first, rest);
    } else {
      assert first.sent + rest.sent == rest.sent;
    }
  }

  lemma TransferThenRun(s: PipelineState, first: Trace, rest: Trace)
    requires Valid(s) && StepLaw(s, first) && MovesOwned(first.state, rest)
    requires |first.sent| == 1
    ensures MovesOwned(s, Trace(rest.state, first.sent + rest.sent))
  {
    var all := first.sent + rest.sent;
    var x := first.sent[0].msg.buffer.id;
    assert x !in s.detached && x in first.state.detached;
    assert all[0] == first.sent[0];
    forall k | 1 <= k < |all|
      ensures all[k] == rest.sent[k - 1]
    {
    }
    forall k | 0 <= k < |all|
      ensures all[k].msg.buffer.id !in s.detached && all[k].msg.buffer.id in rest.state.detached
    {
    }
    forall j, k | 0 <= j < k < |all|
      ensures all[j].msg.buffer.id != all[k].msg.buffer.id
    {
    }
    forall k, i | 0 <= k < |all| && 0 <= i < 2
      ensures all[k].msg.buffer.id != rest.state.readbacks[i].id
    {
    }
  }

  /** Ticks without a pose or a camera image leave the state alone, so a
      pending manual trigger survives them and fires on the next camera tick. */
  lemma ManualTriggerSurvivesBlindTicks(s: PipelineState, blind: seq<Frame>, f: Frame)
    requires WellFormed(s) && s.manualSample
    requires forall i :: 0 <= i < |blind| ==> !blind[i].pose || !FindCamera(blind[i].views)
    requires f.pose && FindCamera(f.views)
    ensures var r := Run(s, Ticks(blind) + [RenderTick(f)]);
      r.state.frameCount == s.frameCount + (if f.fboStatus == FramebufferComplete then 1 else 0)
      && !r.state.manualSample
      && |r.sent| == (if f.fboStatus == FramebufferComplete then 1 else 0)
  {
    BlindTicksChangeNothing(s, [], blind, [RenderTick(f)]);
    assert [] + Ticks(blind) + [RenderTick(f)] == Ticks(blind) + [RenderTick(f)];
    assert [] + [RenderTick(f)] == [RenderTick(f)];
    ApplyIsLawful();
    FoldCons(Apply, s, [RenderTick(f)]);
    var first := Apply(s, RenderTick(f));
    assert Fold(Apply, first.state, [RenderTick(f)][1..]) == Trace(first.state, []);
  }

  function Ticks(frames: seq<Frame>): (evs: seq<Event>)
    ensures |evs| == |frames|
    ensures forall i :: 0 <= i < |frames| ==> evs[i] == RenderTick(frames[i])
  {
    seq(|frames|, i requires 0 <= i < |frames| => RenderTick(frames[i]))
  }

  /** Ticks without a pose or a camera image can be cut out of a run wherever they occur. */
  lemma BlindTicksChangeNothing(s: PipelineState, pre: seq<Event>, blind: seq<Frame>, tail: seq<Event>)
    requires WellFormed(s)
    requires forall i :: 0 <= i < |blind| ==> !blind[i].pose || !FindCamera(blind[i].views)
    ensures Run(s, pre + Ticks(blind) + tail) == Run(s, pre + tail)
  {
    ApplyIsLawful();
    var mid := Fold(Apply, s, pre).state;
    forall i | 0 <= i < |blind|
      ensures Apply(mid, Ticks(blind)[i]) == Trace(mid, [])
    {
      BlindTickIsIdle(mid, blind[i]);
    }
    FoldSkipsIdleEventsAfter(Apply, s, pre, Ticks(blind), tail);
  }

  /** A tick without a pose or a camera image leaves any state alone and sends nothing. */
  lemma BlindTickIsIdle(s: PipelineState, f: Frame)
    requires WellFormed(s)
    requires !f.pose || !FindCamera(f.views)
    ensures Apply(s, RenderTick(f)) == Trace(s, [])
  {
  }

  /** Idle events drop out of a run after any prefix. */
  lemma FoldSkipsIdleEventsAfter(step: (PipelineState, Event) --> Trace, s: PipelineState, pre: seq<Event>, idle: seq<Event>, tail: seq<Event>)
    requires Lawful(step) && WellFormed(s)
    requires forall i :: 0 <= i < |idle| ==> step(Fold(step, s, pre).state, idle[i]) == Trace(Fold(step, s, pre).state, [])
    ensures Fold(step, s, pre + idle + tail) == Fold(step, s, pre + tail)
  {
    var mid := Fold(step, s, pre);
    FoldSkipsIdleEvents(step, mid.state, idle, tail);
    assert pre + idle + tail == pre + (idle + tail);
    FoldAppend(step, s, pre, idle + tail);
    FoldAppend(step, s, pre, tail);
  }

  /** Running `a` then `b` is running `a + b`: the states chain and the transfers concatenate. */
  lemma {:induction false} FoldAppend(step: (PipelineState, Event) --> Trace, s: PipelineState, a: seq<Event>, b: seq<Event>)
    requires Lawful(step) && WellFormed(s)
    ensures var first := Fold(step, s, a);
      var second := Fold(step, first.state, b);
      Fold(step, s, a + b) == Trace(second.state, first.sent + second.sent)
    decreases |a|
  {
    if |a| > 0 {
      assert (a + b)[0] == a[0];
      assert (a + b)[1..] == a[1..] + b;
      var head := step(s, a[0]);
      assert StepLaw(s, head);
      var rest := Fold(step, head.state, a[1..] + b);
      assert Fold(step, s, a + b) == Trace(rest.state, head.sent + rest.sent);
      var first := Fold(step, head.state, a[1..]);
      assert Fold(step, s, a) == Trace(first.state, head.sent + first.sent);
      FoldAppend(step, head.state, a[1..], b);
      var second := Fold(step, first.state, b);
      assert head.sent + (first.sent + second.sent) == (head.sent + first.sent) + second.sent;
    } else {
      assert a + b == b;
    }
  }

  /** Events that leave the state alone and send nothing drop out of a run. */
  lemma {:induction false} FoldSkipsIdleEvents(step: (PipelineState, Event) --> Trace, s: PipelineState, idle: seq<Event>, tail: seq<Event>)
    requires Lawful(step) && WellFormed(s)
    requires forall i :: 0 <= i < |idle| ==> step(s, idle[i]) == Trace(s, [])
    ensures Fold(step, s, idle + tail) == Fold(step, s, tail)
    decreases |idle|
  {
    if |idle| > 0 {
      var evs := idle + tail;
      FoldCons(step, s, evs);
      assert evs[0] == idle[0];
      assert evs[1..] == idle[1..] + tail;
      FoldSkipsIdleEvents(step, s, idle[1..], tail);
    } else {
      assert idle + tail == tail;
    }
  }
}

=== FILE: worker.dfy ===
/** The inference worker's message handler (`self.onmessage` of
    tf-worker-bytes.js), one message at a time. Model loading and the
    TensorFlow.js numerics are outside the model: a successful `init` marks
    the model as loaded, and `predict` (normalise, predict, arg-max, paint)
    is a parameter. */
module Worker {
  import opened Common
  import opened Layout

  /** The worker's module state: the recorded `W`, `H` and whether `model` is set. */
  datatype WorkerState = WorkerState(w: int, h: int, modelLoaded: bool)

  /** `let W = 256, H = 448` and an unset `model` (tf-worker-bytes.js:6-7). */
  function Initial(): WorkerState
  {
    WorkerState(256, 448, false)
  }

  /** A `type` other than the two the worker dispatches on. */
  type OtherTag = t: string | t != "init" && t != "frameRGBA" witness ""

  /** The shape of `e.data`: the two message types the worker knows, any
      other `type`, or no data at all. */
  datatype Msg =
    | Init(modelUrl: string, width: int, height: int)
    | FrameRGBA(buffer: Option<seq<byte>>, width: int, height: int, flippedY: bool)
    | Other(tag: OtherTag)
    | NoData

  /** `{ type: 'mask', bitmap }` posted back to the render loop. */
  datatype Reply = MaskReply(bitmap: LabelMap)

  /** Why a frame produced no reply: the `ImageData` constructor threw, or
      `model.predict` was called while `model` was still undefined. */
  datatype Failure = ImageDataRejected(error: ImageDataError) | ModelNotLoaded

  datatype Outcome = Outcome(state: WorkerState, replies: seq<Reply>, failure: Option<Failure>)

  /** A frame message that runs inference and replies. */
  predicate Processes(s: WorkerState, m: Msg)
  {
    && m.FrameRGBA?
    && m.buffer.Some?
    && Accepts(|m.buffer.value|, m.width, m.height)
    && s.modelLoaded
  }

  /** The model input for a frame the `ImageData` constructor accepts; the
      tensor has the dimensions the constructor settled on. */
  function FrameInput(buffer: seq<byte>, width: int, height: int, flippedY: bool): (t: Tensor)
    requires Accepts(|buffer|, width, height)
    ensures HasShape(t, ToUint32(height), ToUint32(width))
    ensures Samples(t, buffer, ToUint32(width), ToUint32(height), flippedY)
  {
    AcceptsExactly(|buffer|, width, height);
    ModelInput(buffer, ToUint32(width), ToUint32(height), flippedY)
  }

  function OnMessage(s: WorkerState, m: Msg, predict: Tensor -> LabelMap): (o: Outcome)
    // `init` records the dimensions and loads the model, with no reply
    ensures m.Init? ==> o == Outcome(WorkerState(m.width, m.height, true), [], None)
    // only `init` changes the worker's state
    ensures !m.Init? ==> o.state == s
    // a frame without a buffer, or a message of another type, does nothing
    ensures (m.FrameRGBA? && m.buffer.None?) || m.Other? || m.NoData? ==> o == Outcome(s, [], None)
    // exactly one reply per processed frame, and none otherwise
    ensures |o.replies| == (if Processes(s, m) then 1 else 0)
    ensures Processes(s, m) ==>
      o.replies[0] == MaskReply(predict(FrameInput(m.buffer.value, m.width, m.height, m.flippedY)))
    // a frame with a buffer that is not processed failed, and says why
    ensures m.FrameRGBA? && m.buffer.Some? && !Processes(s, m) ==>
      o.failure ==
        if !Accepts(|m.buffer.value|, m.width, m.height)
        then Some(ImageDataRejected(CheckImageData(|m.buffer.value|, m.width, m.height).value))
        else Some(ModelNotLoaded)
  {
    match m
    case Init(_, width, height) => Outcome(WorkerState(width, height, true), [], None)
    case FrameRGBA(buffer, width, height, flippedY) =>
      if buffer.None? then Outcome(s, [], None)
      else
        var check := CheckImageData(|buffer.value|, width, height);
        if check.Some? then Outcome(s, [], Some(ImageDataRejected(check.value)))
        else
          var input := FrameInput(buffer.value, width, height, flippedY);
          if !s.modelLoaded then Outcome(s, [], Some(ModelNotLoaded))
          else Outcome(s, [MaskReply(predict(input))], None)
    case Other(_) => Outcome(s, [], None)
    case NoData => Outcome(s, [], None)
  }

  datatype WorkerTrace = WorkerTrace(state: WorkerState, replies: seq<Reply>)

  /** The worker handling a stream of messages in order. */
  function RunAll(s: WorkerState, ms: seq<Msg>, predict: Tensor -> LabelMap): WorkerTrace
    decreases |ms|
  {
    if |ms| == 0 then WorkerTrace(s, [])
    else
      var o := OnMessage(s, ms[0], predict);
      var rest := RunAll(o.state, ms[1..], predict);
      WorkerTrace(rest.state, o.replies + rest.replies)
  }

  /** How many of the messages are processed frames, each judged in the
      state the worker is in when it arrives. */
  function CountProcessed(s: WorkerState, ms: seq<Msg>, predict: Tensor -> LabelMap): nat
    decreases |ms|
  {
    if |ms| == 0 then 0
    else
      (if Processes(s, ms[0]) then 1 else 0) +
      CountProcessed(OnMessage(s, ms[0], predict).state, ms[1..], predict)
  }

  /** Over any message stream, the worker posts one mask per processed frame
      and nothing else. */
  lemma {:induction false} OneReplyPerProcessedFrame(s: WorkerState, ms: seq<Msg>, predict: Tensor -> LabelMap)
    ensures |RunAll(s, ms, predict).replies| == CountProcessed(s, ms, predict)
    decreases |ms|
  {
    if |ms| > 0 {
      OneReplyPerProcessedFrame(OnMessage(s, ms[0], predict).state, ms[1..], predict);
    }
  }

  /** Once an `init` has been handled, every frame whose buffer matches its
      stated dimensions is processed. */
  lemma InitEnablesFrames(s: WorkerState, url: string, w: int, h: int, m: Msg, predict: Tensor -> LabelMap)
    requires m.FrameRGBA? && m.buffer.Some?
    requires 0 < m.width < TwoTo32 && 0 < m.height < TwoTo32
    requires |m.buffer.value| == 4 * m.width * m.height
    ensures Processes(OnMessage(s, Init(url, w, h), predict).state, m)
  {
    AcceptsExactly(|m.buffer.value|, m.width, m.height);
  }
}
